=== FILE: README.md ===
# iCloud3 device_tracker entity, modelled in Dafny

This project models the pure core of `device_tracker.py` from the iCloud3 Home
Assistant integration. It covers five parts:

- **Sensor ladder.** This is how a device_tracker entity resolves a sensor value.
  It reads the live `Device` when one exists, otherwise the restore snapshot,
  otherwise a typed default. A snapshot value comes back as it is. A live
  reading is classified: a value `isnumber` accepts passes through, an unset
  value becomes the blank placeholder, a stationary zone becomes its label, and
  a failure gives the typed default.
- **Location name.** The "state not set" test and the `location_name` fallback
  to the entity's default value.
- **Attribute bundle.** The entity exposes the attributes built by
  `_get_extra_attributes`.
- **Registry reconciliation.** Each configured devicename is bound to the id of
  the Home Assistant device-registry entry that names it. Deleted entries are
  scanned first and active entries second, so an active entry wins.
- **Setup and writes.** The setup loop of `async_setup_entry` decides which
  configured devices get an entity. After each successful state write, the
  entity's "to" zone moves into its "from" slot.

Python values are the datatype `Entities.Value`, with variants None, str,
number and other. Numbers carry their `str()` text, because the entity does no
arithmetic on them.

An exception is the `Attempt` variant `Raised`. An `except` clause that
substitutes a value is mostly `Attempt.Recover`; `Resolver.AttributeValue`
writes its `except` as a `match` arm. The helpers from
`helpers/common` are fields of `Entities.Helpers`, and their code is not part of
this model. They are `instr`, `isnumber`, `is_statzone` and
`zone_display_as`. Any total function returning a bool (a string for
`zone_display_as`), or raising, is a possible helper and an input to the
proofs.

The `const.py` names this model uses are in `consts.dfy`.
`const.py` is not part of this model, so those spellings are stand-ins. The
attribute keys are a datatype, which assumes that the key constants are
distinct.

Registry reconciliation stops scanning a tuple at its first configured item.
The `break` at `device_tracker.py:151` leaves only that inner loop, so the
entry's other tagged tuples are still scanned.
`Registry.TwoTaggedTuplesBindTwoNames` exhibits it.

## Model

| member | source | states |
|---|---|---|
| PyStr.StripEmptyIffAllSpace | device_tracker.py:324 | `value.strip() == ''` holds exactly when every character of the text is Python whitespace |
| PyStr.FirstField | device_tracker.py:320 | `split(' ')[0]` is a prefix of the text with no space in it, followed by a space or the end of the text; a text without a space is kept whole |
| Resolver.Normalise | device_tracker.py:322-328 | a value `isnumber` accepts passes; otherwise None, blank text or the "not set" marker becomes the blank placeholder and a stationary zone becomes its label; it raises exactly when a helper raises or a non-string would be stripped |
| Resolver.SensorValue | device_tracker.py:307-334 | without a Device, the snapshot value, or the typed default when the snapshot has none; with a Device, only the raw reading, its leading token (numeric request), the blank placeholder, the stationary label or the typed default can come back |
| Resolver.NumericToken | device_tracker.py:319-320 | a numeric request in which `instr` finds a space cuts a string to the text before its first space; a text request, or one without a space, keeps the reading whole; cutting raises exactly when `instr` raises or a non-string would be split |
| Resolver.NumericRequestKeepsLeadingToken | device_tracker.py:319-332 | a numeric request for a reading with a space cuts it to the text before the first space, still a string, and classifies that token like any reading, 0 on a failure; a token `isnumber` accepts comes back as it is |
| Resolver.SpeedReadingKeepsNumber | device_tracker.py:319-320 | the reading "37.5 mph" of a numeric request yields the string "37.5" |
| Resolver.UnsetReadingShowsBlank | device_tracker.py:319-325 | a live token (the reading, or its cut leading text) that `isnumber` rejects and that is None, blank or "not set" shows the blank placeholder, for text and numeric requests alike |
| Resolver.BlankNumericReadingShowsBlank | device_tracker.py:319-325 | the reading " " of a numeric request, cut to the empty token, shows the blank placeholder and not 0 |
| Resolver.StationaryReadingShowsLabel | device_tracker.py:319-327 | a live token that `isnumber` rejects, that is set text and that `is_statzone` accepts shows the stationary label |
| Resolver.NumberLikeReadingPassesThrough | device_tracker.py:319-323 | a live token that `isnumber` accepts comes back unchanged |
| Resolver.OtherReadingPassesThrough | device_tracker.py:319-328 | any other live text token comes back unchanged |
| Resolver.FailingReadingShowsDefault | device_tracker.py:319-332 | every failure on the live branch yields the typed default, 0 or the blank placeholder: cutting that raises (`instr` raises, or a non-string would be split), and, on the token, `isnumber` or `is_statzone` raising or a non-string being stripped |
| Resolver.SnapshotSkipsNormalisation | device_tracker.py:314-347 | the snapshot value is not classified: a restored "not set" marker comes back as it is, where the same live reading shows the blank placeholder |
| Resolver.AttributeValue | device_tracker.py:350-366 | 0 without a Device; a result other than 0 is the Device's own non-blank, non-"not set" string attribute, and every such attribute comes back unchanged |
| Resolver.NumericAttributeReadsZero | device_tracker.py:358-364 | a numeric attribute reads as 0, because `strip` raises on it |
| Resolver.StateValueNotSet | device_tracker.py:369-383 | true without a Device; with one, true exactly when the resolved state value is a string that starts with the blank placeholder, is blank, or is either "not set" marker |
| Resolver.LocationName | device_tracker.py:207-216 | the entity's default value without a Device or whenever the state is not set; with a Device and a resolved state value that is not an unset text, that value |
| Resolver.UnsetStateShowsDefault | device_tracker.py:208-216 | a live state reading that `isnumber` rejects, that `is_statzone` does not accept, and that is None or an unset text makes `location_name` show the entity's default value |
| Attributes.SensedAttributes | device_tracker.py:270-287 | one entry per mirrored attribute, the five tracked-only ones exactly for a tracked Device, each holding its sensor's value |
| Attributes.ZoneAttributes | device_tracker.py:289-293 | `track_from_zones` is present exactly when the zones differ from `[home]`, as their comma-joined list; `primary_home_zone` is present exactly when the base zone is not home, as its display name; the part raises exactly when `zone_display_as` raises there |
| Attributes.ExtraAttributes | device_tracker.py:263-304 | the method returns None (its `except`) exactly when `zone_display_as` raises on a primary home zone other than home |
| Attributes.BundleKeys | device_tracker.py:268-298 | whenever the base zone is home or `zone_display_as` returns, the bundle is built and has exactly the promised keys: the eleven base keys, the four metadata keys, the tracked-only keys for a tracked Device, and one key per zone setting that differs from home |
| Attributes.BundleValues | device_tracker.py:270-298 | for any way of reading sensors, whenever the base zone is home or `zone_display_as` returns, the bundle is built and each key holds the value its line assigns |
| Attributes.BundleSensedValues | device_tracker.py:271-287 | whenever the bundle is built, each mirrored attribute it holds has the text-resolved value of its own sensor |
| Attributes.BundleOtherValues | device_tracker.py:270-298 | whenever the bundle is built, `data_source` is the location source followed by " (iCloud3)"; the zone and metadata keys hold the joined zones, the zone's display name, the versions, the joined tracked devicenames and the directory |
| Attributes.TrackedKeysIffTracked | device_tracker.py:282-287 | whenever the bundle is built, each tracked-only key is in it exactly when the Device exists and is tracked |
| Attributes.AbsentDeviceBundle | device_tracker.py:268-298 | before the Device exists the bundle never fails and has exactly fifteen keys, the base and metadata keys |
| Registry.FirstConfigured | device_tracker.py:148-151 | nothing exactly when no item of the tuple is a configured devicename; otherwise the first configured item |
| Registry.BoundNames | device_tracker.py:145-151 | an entry binds only configured devicenames |
| Registry.ScanIdentifiers | device_tracker.py:144-154 | the names an entry's identifiers bind now map to the entry's id; every other name keeps its old binding |
| Registry.ScanEntries | device_tracker.py:115-118 | after a pass over entries, each name has the id of the last entry that binds it, or its earlier binding |
| Registry.Reconcile | device_tracker.py:109-118 | starting from an empty map, an active entry's binding overrides any deleted entry's, and only configured devicenames are bound |
| Registry.ActiveOverridesDeleted | device_tracker.py:109-118 | a devicename some active entry binds ends with the last such entry's id, whatever the deleted entries say |
| Registry.ReaddedDeviceKeepsActiveId | device_tracker.py:109-118 | a device deleted and added again, with the same identifier tuple in both entries, keeps the active entry's id |
| Registry.TwoTaggedTuplesBindTwoNames | device_tracker.py:146-151 | the `break` leaves only the item loop: an entry with two tagged tuples binds a devicename from each |
| Registry.UnreadableIdentifierEndsEntry | device_tracker.py:144-154 | an identifier whose membership test raises ends its entry; the bindings made before it stay |
| Registry.EntryFailureIsolated | device_tracker.py:144-154 | whatever one entry does, every name it does not bind gets the same last binding |
| Registry.ScanEntriesIsolated | device_tracker.py:115-118 | the same holds for the map after a pass over the entries |
| Registry.UnmatchedEntryAddsNothing | device_tracker.py:146-151 | an entry that binds nothing can be dropped without changing any binding |
| Registry.GetHaDeviceIdFromEntry | device_tracker.py:125-154 | the nested loops over identifiers and items compute the entry's bindings |
| Registry.GetHaDeviceIds | device_tracker.py:104-122 | the loops over deleted and active entries compute the reconciled map |
| Resolver.RestoreOrDefault | device_tracker.py:336-346 | the snapshot's value for the devicename and sensor when the snapshot holds one, otherwise the given not-set value |
| Setup.NewEntityStart | device_tracker.py:160-186 | a new entity, as the constructor is written, keeps its devicename and configuration, has no Device, an empty "to" zone and no `from_state_zone`, and its default value is the ladder's zone before the Device exists |
| Setup.DefaultIsZoneBeforeDevice | device_tracker.py:174-178 | a new entity's default value is the restored zone, or the blank placeholder; this equals what the ladder gives for the zone before the Device exists |
| Setup.DevicenamesElements | device_tracker.py:75-76 | every configured devicename is recorded, in order |
| Setup.AdmittedSound | device_tracker.py:74-86 | only active configurations whose devicename has no entity yet get one; no devicename gets two; every active configuration's new devicename gets one |
| Setup.AdmittedTakesFirst | device_tracker.py:78-86 | when a devicename repeats, its first active configuration gets the entity |
| Setup.NothingAdmittedWhenAllKnown | device_tracker.py:78-80 | when every active devicename already has an entity, no entity is created |
| Setup.SetupTrackers | device_tracker.py:73-90 | the loop records every devicename, creates the admitted entities in order with the constructor as written and registers each under its devicename, keeps existing entities, sets the entity count only when it was 0, and adds one to the created count per entity |
| Setup.SetupTwiceCreatesNothing | device_tracker.py:73-90 | running the setup loop twice over the same configuration, the second run creates no entity |
| Setup.NamesOfBuild | device_tracker.py:84-86 | the entities created for some configurations carry exactly their devicenames, the keys they are registered under |
| Setup.AdmittedTwiceIsEmpty | device_tracker.py:78-80 | once the admitted devicenames are known, the same configuration admits nothing |
| Setup.SetupEntryAsWritten | device_tracker.py:62-95 | as written: the created entities, none included, are always handed on, and the bindings are always rebuilt from the registry against every recorded devicename |
| Registry.EmptyRegistryBindsNothing | device_tracker.py:111-118 | reconciling against a registry with no entries leaves no binding: the map is reset before the scan |
| Setup.EmptySetupStillReconciles | device_tracker.py:93-95 | when every active devicename already has an entity, the setup as written hands on an empty list and rebuilds the bindings (an empty registry drops a stale one), while the corrected setup hands nothing on and keeps them |
| Setup.SetupEntry | device_tracker.py:62-95 | the corrected setup, with `if NewDeviceTrackers:`: entities are handed on exactly when some active configuration has a new devicename; the registry is then reconciled against every recorded devicename; otherwise the bindings and entities stay as they were |
| ZoneShift.WriteState | device_tracker.py:487-503 | a successful write moves the "to" zone into the "from" slot and reads the state zone through the ladder; a write that raises moves nothing; identity and Device are untouched |
| ZoneShift.WritesKeepLastTwoZones | device_tracker.py:490-500 | after any run of writes, the "to" slot holds the last zone read and the "from" slot the one before it, or the initial "to" zone; a run without a successful write leaves both slots alone |
| ZoneShift.FromZoneUnsetUntilFirstWrite | device_tracker.py:180-181 | as written, a new entity lacks `from_state_zone` exactly until its first successful write |
| ZoneShift.FromZoneAlwaysSet | device_tracker.py:180-181 | with the corrected constructor the "from" slot always holds a zone, the empty one before the first write |

## Left out

- `async_setup_scanner`, `async_add_entities`, `device_info`, `icon`, `source_type`, `unique_id` and `name`: Home Assistant plumbing or constants with no logic to prove.
- Entity and device removal, `update_entity_attribute` and `async_will_remove_from_hass`: these act on Home Assistant's registries, which are not part of this model.
- The properties `location_accuracy`, `latitude`, `longitude` and `battery_level`: each is one numeric call of the sensor ladder, which `Resolver.SensorValue` covers. The `str()` conversion in two of them is not modelled.
- Loading the configuration in `start_ic3` (lines 68-71), and all logging: both are I/O.
- The outer `try`/`except` of `async_setup_entry` and of the constructor: with typed configuration records and total helpers, no step inside them raises.
- The `if DeviceTracker:` test at line 84: an entity object is always truthy, so the model treats the test as always true.
- The outer `try` of `_get_ha_device_ids_from_device_registry`: only `dr.async_get` or the registry's own iteration could raise there. Both belong to Home Assistant.
- `async_write_ha_state` is only a boolean input: whether it raised.
- `_check_zone_change_trigger` returns at line 515 before any rule, so a write issues no trigger. The trigger rules and `_issue_zone_change_trigger` after that return are commented out and not modelled.
- Python dict insertion order: the attribute bundle is a map. Set iteration order in the registry is taken as the given order of an entry's identifiers.
- The helpers of `helpers/common` are uninterpreted: any total function returning a bool (a string for `zone_display_as`), or raising, is an input.
- The helpers are taken to return a bool, so `isnumber(v) is False` at line 323 is `not isnumber(v)`. An `isnumber` returning None, 0 or '' would skip classification in the source, and the model cannot express that.
- Attributes.ExtraAttributes: the bundle's keys are a datatype, so two `const.py` key names that happen to be equal, which would overwrite each other in the dict, are not modelled.
- Setup.SetupTrackers: the list handed to `async_add_entities` is the method's result; what Home Assistant does with it is not modelled.

## Findings

| source | as written | input that shows it | evidently intended | confidence | as-written member | corrected member |
|---|---|---|---|---|---|---|
| device_tracker.py:180 | the constructor assigns `self.from_state_zonee = ''`, a misspelt name, so `from_state_zone` does not exist until the first successful state write | any new entity before its first successful write: reading `from_state_zone` raises AttributeError | `self.from_state_zone = ''`, so the "from" slot starts empty like the "to" slot | high that the name is misspelt; low impact, since only commented-out code reads the slot; not executed | ZoneShift.FromZoneUnsetUntilFirstWrite | ZoneShift.FromZoneAlwaysSet |
| device_tracker.py:93 | `NewDeviceTrackers is not []` compares identity with a fresh empty list, so it is true for every list | a setup in which every configured device is inactive or already has an entity: an empty list is still handed to `async_add_entities`, and the bindings are reset and read again from the registry | `if NewDeviceTrackers:`, acting only when some entity was created | medium; not executed | Setup.EmptySetupStillReconciles | Setup.SetupEntry |

=== FILE: attributes.dfy ===
/** `_get_extra_attributes`: the attribute bundle the device_tracker entity exposes. */
module Attributes {
  import opened Wrappers
  import opened PyStr
  import opened Entities
  import Consts
  import Resolver

  /** The attributes that each mirror one sensor. */
  datatype SensedKey =
    | DeviceStatus | Name | Picture | Zone | LastZone | ZoneDatetime | LastLocated | LastUpdate
    | HomeDistance | DistanceToDevices
    | NextUpdate | Trigger | FromZone | WazeDistance | CalcDistance

  /**
   * The keys of the attribute dict. The dict's keys are constants of const.py;
   * the model takes them to be distinct names.
   */
  datatype AttrKey =
    | Sensed(key: SensedKey)
    | DataSource
    | TrackFromZones | PrimaryHomeZone
    | Icloud3Version | EventLogVersion | Tracking | Icloud3Directory

  /** The sensor each mirrored attribute is read from. */
  function SensorFor(k: SensedKey): string {
    match k
    case DeviceStatus => Consts.DeviceStatus
    case Name => Consts.Name
    case Picture => Consts.Picture
    case Zone => Consts.Zone
    case LastZone => Consts.LastZone
    case ZoneDatetime => Consts.ZoneDatetime
    case LastLocated => Consts.LastLocatedDatetime
    case LastUpdate => Consts.LastUpdateDatetime
    case HomeDistance => Consts.HomeDistance
    case DistanceToDevices => Consts.DistanceToDevices
    case NextUpdate => Consts.NextUpdateDatetime
    case Trigger => Consts.Trigger
    case FromZone => Consts.FromZone
    case WazeDistance => Consts.WazeDistance
    case CalcDistance => Consts.CalcDistance
  }

  /** Every mirrored attribute. */
  const AllSensed: set<SensedKey> :=
    {DeviceStatus, Name, Picture, Zone, LastZone, ZoneDatetime, LastLocated, LastUpdate, HomeDistance, DistanceToDevices,
     NextUpdate, Trigger, FromZone, WazeDistance, CalcDistance}

  /** The five mirrored attributes only a tracked Device has. */
  predicate TrackedOnly(k: SensedKey) {
    k.NextUpdate? || k.Trigger? || k.FromZone? || k.WazeDistance? || k.CalcDistance?
  }

  /** The Device exists and is tracked, not just monitored. */
  predicate IsTracked(t: Tracker) {
    t.device.Some? && t.device.value.isTracked
  }

  /** The Device is tracked from zones other than just home. */
  predicate HasCustomZones(t: Tracker) {
    t.device.Some? && t.device.value.trackFromZones != [Consts.Home]
  }

  /** The Device's primary home zone is not the home zone. */
  predicate HasCustomBase(t: Tracker) {
    t.device.Some? && t.device.value.trackFromBaseZone != Consts.Home
  }

  /**
   * The keys a bundle is promised to have: the eleven base keys and the four
   * metadata keys always, the five tracked-only keys for a tracked Device, and
   * a key for each zone setting that differs from home.
   */
  predicate InBundle(t: Tracker, k: AttrKey) {
    match k
    case Sensed(s) => !TrackedOnly(s) || IsTracked(t)
    case DataSource => true
    case TrackFromZones => HasCustomZones(t)
    case PrimaryHomeZone => HasCustomBase(t)
    case Icloud3Version => true
    case EventLogVersion => true
    case Tracking => true
    case Icloud3Directory => true
  }

  /** Assembling the bundle does not raise: the only step that can is `zone_display_as` on a custom base zone. */
  predicate BundleSucceeds(t: Tracker, h: Helpers) {
    !HasCustomBase(t) || h.zoneDisplayAs(t.device.value.trackFromBaseZone).Returned?
  }

  /** The eleven keys every bundle has besides the metadata. */
  const BaseKeys: set<AttrKey> :=
    {DataSource, Sensed(DeviceStatus), Sensed(Name), Sensed(Picture), Sensed(Zone), Sensed(LastZone),
     Sensed(ZoneDatetime), Sensed(LastLocated), Sensed(LastUpdate), Sensed(HomeDistance), Sensed(DistanceToDevices)}

  /** The four process-wide metadata keys. */
  const MetadataKeys: set<AttrKey> := {Icloud3Version, EventLogVersion, Tracking, Icloud3Directory}

  /** Every mirrored attribute is one of the fifteen. */
  lemma AllSensedComplete(k: SensedKey)
    ensures k in AllSensed
  {
    match k
    case DeviceStatus =>
    case Name =>
    case Picture =>
    case Zone =>
    case LastZone =>
    case ZoneDatetime =>
    case LastLocated =>
    case LastUpdate =>
    case HomeDistance =>
    case DistanceToDevices =>
    case NextUpdate =>
    case Trigger =>
    case FromZone =>
    case WazeDistance =>
    case CalcDistance =>
  }

  /**
   * How the entity reads a sensor for its attributes: `_get_sensor_value(sensor)`,
   * a text (not numeric) request.
   */
  function TextReader(restore: Snapshot, t: Tracker, h: Helpers): string -> Value {
    sensor => Resolver.SensorValue(restore, t, h, sensor, false)
  }

  /** The attributes read from sensors, one per mirrored key the Device's tracking state calls for. */
  function SensedAttributes(t: Tracker, read: string -> Value): (m: map<AttrKey, Value>)
    ensures forall k :: k in m <==> k.Sensed? && InBundle(t, k)
    ensures forall k :: Sensed(k) in m ==> m[Sensed(k)] == read(SensorFor(k))
  {
    var m := map k | k in AllSensed && InBundle(t, Sensed(k)) :: Sensed(k) := read(SensorFor(k));
    assert forall k: AttrKey :: k.Sensed? && InBundle(t, k) ==> k in m by {
      forall k: AttrKey | k.Sensed? && InBundle(t, k) ensures k in m {
        AllSensedComplete(k.key);
      }
    }
    m
  }

  /** The attributes about the zones a Device is tracked from; `zone_display_as` may raise. */
  function ZoneAttributes(t: Tracker, h: Helpers): (r: Attempt<map<AttrKey, Value>>)
    ensures r.Raised? <==> HasCustomBase(t) && h.zoneDisplayAs(t.device.value.trackFromBaseZone).Raised?
    ensures r.Returned? ==> forall k :: k in r.value ==> k.TrackFromZones? || k.PrimaryHomeZone?
    ensures r.Returned? ==> (TrackFromZones in r.value <==> HasCustomZones(t))
    ensures r.Returned? ==> (PrimaryHomeZone in r.value <==> HasCustomBase(t))
    ensures (r.Returned? && HasCustomZones(t))
              ==> r.value[TrackFromZones] == VStr(Join(t.device.value.trackFromZones, ", "))
    ensures (r.Returned? && HasCustomBase(t))
              ==> r.value[PrimaryHomeZone] == VStr(h.zoneDisplayAs(t.device.value.trackFromBaseZone).value)
  {
    match t.device
    case None => Returned(map[])
    case Some(d) =>
      var fromZones :=
        if d.trackFromZones != [Consts.Home] then map[TrackFromZones := VStr(Join(d.trackFromZones, ", "))]
        else map[];
      if d.trackFromBaseZone == Consts.Home then Returned(fromZones)
      else
        var shown :- h.zoneDisplayAs(d.trackFromBaseZone);
        Returned(fromZones[PrimaryHomeZone := VStr(shown)])
  }

  /** The metadata attributes, read from the process-wide state. */
  function Metadata(g: Globals): map<AttrKey, Value> {
    map[
      Icloud3Version := VStr(g.version),
      EventLogVersion := VStr(g.versionEvlog),
      Tracking := VStr(Join(g.trackedDevicenames, ", ")),
      Icloud3Directory := VStr(g.icloud3Directory)]
  }

  /** The `data_source` attribute: the location source followed by " (iCloud3)". */
  function DataSourceValue(read: string -> Value): Value {
    VStr(Display(read(Consts.LocationSource)) + " (iCloud3)")
  }

  /** The bundle assembled from a sensor reader, or None when assembling it raises. */
  function Bundle(g: Globals, t: Tracker, h: Helpers, read: string -> Value): Option<map<AttrKey, Value>> {
    var sensed := SensedAttributes(t, read);
    match ZoneAttributes(t, h)
    case Raised => None
    case Returned(zones) => Some(sensed[DataSource := DataSourceValue(read)] + zones + Metadata(g))
  }

  /**
   * `_get_extra_attributes`. Python's None (the method's result after an
   * exception) is `None` here: it happens exactly when `zone_display_as` raises
   * on a primary home zone other than home.
   */
  function ExtraAttributes(g: Globals, t: Tracker, h: Helpers): (r: Option<map<AttrKey, Value>>)
    ensures r.None? <==> HasCustomBase(t) && h.zoneDisplayAs(t.device.value.trackFromBaseZone).Raised?
  {
    Bundle(g, t, h, TextReader(g.restore, t, h))
  }

  /** The keys of an assembled bundle follow from the keys of its parts. */
  lemma AssembledKeys(t: Tracker, sensed: map<AttrKey, Value>, source: Value,
                      zones: map<AttrKey, Value>, meta: map<AttrKey, Value>)
    requires forall k :: k in sensed <==> k.Sensed? && InBundle(t, k)
    requires forall k :: k in zones ==> k.TrackFromZones? || k.PrimaryHomeZone?
    requires TrackFromZones in zones <==> HasCustomZones(t)
    requires PrimaryHomeZone in zones <==> HasCustomBase(t)
    requires meta.Keys == MetadataKeys
    ensures forall k :: k in sensed[DataSource := source] + zones + meta <==> InBundle(t, k)
  {
    var r := sensed[DataSource := source] + zones + meta;
    forall k
      ensures k in r <==> InBundle(t, k)
    {
      assert k in r <==> k in sensed || k == DataSource || k in zones || k in MetadataKeys;
      if k.TrackFromZones? || k.PrimaryHomeZone? {
        assert k !in sensed && k !in MetadataKeys;
      } else if k.Sensed? {
        assert k !in zones && k !in MetadataKeys;
      } else {
        assert k !in zones && k !in sensed;
      }
    }
  }

  /** The bundle has exactly the keys `InBundle` promises. */
  lemma BundleKeys(g: Globals, t: Tracker, h: Helpers)
    requires BundleSucceeds(t, h)
    ensures ExtraAttributes(g, t, h).Some?
    ensures forall k :: k in ExtraAttributes(g, t, h).value <==> InBundle(t, k)
  {
    var read := TextReader(g.restore, t, h);
    AssembledKeys(t, SensedAttributes(t, read), DataSourceValue(read), ZoneAttributes(t, h).value, Metadata(g));
  }

  /** Where each value of an assembled bundle comes from. */
  lemma AssembledValues(sensed: map<AttrKey, Value>, source: Value,
                        zones: map<AttrKey, Value>, meta: map<AttrKey, Value>)
    requires DataSource !in zones && DataSource !in meta
    requires forall k :: k in zones ==> k !in meta
    ensures var r := sensed[DataSource := source] + zones + meta;
            && r[DataSource] == source
            && (forall k :: k in zones ==> r[k] == zones[k])
            && (forall k :: k in meta ==> r[k] == meta[k])
            && (forall k :: k in sensed && k != DataSource && k !in zones && k !in meta ==> r[k] == sensed[k])
  {
  }

  /** A bundle assembled from any sensor reader is the sensed part, the data source, the zone part and the metadata. */
  lemma BundleParts(g: Globals, t: Tracker, h: Helpers, read: string -> Value)
    requires BundleSucceeds(t, h)
    ensures Bundle(g, t, h, read).Some?
    ensures ZoneAttributes(t, h).Returned?
    ensures Bundle(g, t, h, read).value
            == SensedAttributes(t, read)[DataSource := DataSourceValue(read)] + ZoneAttributes(t, h).value + Metadata(g)
  {
  }

  /** Where each value of a map assembled from a sensed part, a data source, a zone part and the metadata comes from. */
  lemma PartsValues(r: map<AttrKey, Value>, sensed: map<AttrKey, Value>, source: Value,
                    zones: map<AttrKey, Value>, meta: map<AttrKey, Value>, read: string -> Value)
    requires r == sensed[DataSource := source] + zones + meta
    requires meta.Keys == MetadataKeys
    requires forall k :: Sensed(k) in sensed ==> sensed[Sensed(k)] == read(SensorFor(k))
    requires forall k :: k in zones ==> k.TrackFromZones? || k.PrimaryHomeZone?
    ensures forall k :: Sensed(k) in r ==> r[Sensed(k)] == read(SensorFor(k))
    ensures DataSource in r && r[DataSource] == source
    ensures forall k :: k in zones ==> k in r && r[k] == zones[k]
    ensures forall k :: k in meta ==> k in r && r[k] == meta[k]
  {
    AssembledValues(sensed, source, zones, meta);
    forall k | Sensed(k) in r
      ensures r[Sensed(k)] == read(SensorFor(k))
    {
      assert Sensed(k) !in zones && Sensed(k) !in meta;
    }
  }

  /** The values of a bundle assembled from any sensor reader, when assembling it does not raise. */
  lemma BundleValues(g: Globals, t: Tracker, h: Helpers, read: string -> Value)
    requires BundleSucceeds(t, h)
    ensures Bundle(g, t, h, read).Some?
    ensures var r := Bundle(g, t, h, read).value;
            && (forall k :: Sensed(k) in r ==> r[Sensed(k)] == read(SensorFor(k)))
            && DataSource in r && r[DataSource] == DataSourceValue(read)
            && (HasCustomZones(t) ==> TrackFromZones in r
                                      && r[TrackFromZones] == VStr(Join(t.device.value.trackFromZones, ", ")))
            && (HasCustomBase(t) ==> PrimaryHomeZone in r
                                     && r[PrimaryHomeZone]
                                        == VStr(h.zoneDisplayAs(t.device.value.trackFromBaseZone).value))
            && (forall k :: k in Metadata(g) ==> k in r && r[k] == Metadata(g)[k])
  {
    BundleParts(g, t, h, read);
    var r := Bundle(g, t, h, read).value;
    var zones := ZoneAttributes(t, h).value;
    PartsValues(r, SensedAttributes(t, read), DataSourceValue(read), zones, Metadata(g), read);
  }

  /** Each mirrored attribute holds the resolved value of its sensor, read as text (not numeric). */
  lemma BundleSensedValues(g: Globals, t: Tracker, h: Helpers, k: SensedKey)
    requires BundleSucceeds(t, h) && InBundle(t, Sensed(k))
    ensures ExtraAttributes(g, t, h).Some? && Sensed(k) in ExtraAttributes(g, t, h).value
    ensures ExtraAttributes(g, t, h).value[Sensed(k)] == Resolver.SensorValue(g.restore, t, h, SensorFor(k), false)
  {
    BundleKeys(g, t, h);
    BundleValues(g, t, h, TextReader(g.restore, t, h));
  }

  /** The values of the keys that are not read from a single sensor. */
  lemma BundleOtherValues(g: Globals, t: Tracker, h: Helpers)
    requires BundleSucceeds(t, h)
    ensures ExtraAttributes(g, t, h).Some?
    ensures var r := ExtraAttributes(g, t, h).value;
            && DataSource in r
            && r[DataSource]
               == VStr(Display(Resolver.SensorValue(g.restore, t, h, Consts.LocationSource, false)) + " (iCloud3)")
            && (HasCustomZones(t) ==> TrackFromZones in r
                                      && r[TrackFromZones] == VStr(Join(t.device.value.trackFromZones, ", ")))
            && (HasCustomBase(t) ==> PrimaryHomeZone in r
                                     && r[PrimaryHomeZone]
                                        == VStr(h.zoneDisplayAs(t.device.value.trackFromBaseZone).value))
            && Icloud3Version in r && r[Icloud3Version] == VStr(g.version)
            && EventLogVersion in r && r[EventLogVersion] == VStr(g.versionEvlog)
            && Tracking in r && r[Tracking] == VStr(Join(g.trackedDevicenames, ", "))
            && Icloud3Directory in r && r[Icloud3Directory] == VStr(g.icloud3Directory)
  {
    var read := TextReader(g.restore, t, h);
    BundleValues(g, t, h, read);
    MetadataValues(g, ExtraAttributes(g, t, h).value);
    assert DataSourceValue(read)
           == VStr(Display(Resolver.SensorValue(g.restore, t, h, Consts.LocationSource, false)) + " (iCloud3)");
  }

  /** A map holding the metadata entries holds the four process-wide values. */
  lemma MetadataValues(g: Globals, r: map<AttrKey, Value>)
    requires forall k :: k in Metadata(g) ==> k in r && r[k] == Metadata(g)[k]
    ensures && Icloud3Version in r && r[Icloud3Version] == VStr(g.version)
            && EventLogVersion in r && r[EventLogVersion] == VStr(g.versionEvlog)
            && Tracking in r && r[Tracking] == VStr(Join(g.trackedDevicenames, ", "))
            && Icloud3Directory in r && r[Icloud3Directory] == VStr(g.icloud3Directory)
  {
    assert Icloud3Version in Metadata(g) && EventLogVersion in Metadata(g);
    assert Tracking in Metadata(g) && Icloud3Directory in Metadata(g);
  }

  /** The five tracked-only keys are in the bundle exactly when the Device exists and is tracked. */
  lemma TrackedKeysIffTracked(g: Globals, t: Tracker, h: Helpers, k: SensedKey)
    requires BundleSucceeds(t, h) && TrackedOnly(k)
    ensures ExtraAttributes(g, t, h).Some?
    ensures Sensed(k) in ExtraAttributes(g, t, h).value <==> t.device.Some? && t.device.value.isTracked
  {
    BundleKeys(g, t, h);
  }

  /** Without a Device, the promised keys are the base and metadata keys. */
  lemma InBundleWithoutDevice(t: Tracker, k: AttrKey)
    requires t.device.None?
    ensures InBundle(t, k) <==> k in BaseKeys + MetadataKeys
  {
    if k.Sensed? {
      AllSensedComplete(k.key);
    }
  }

  /** The base and metadata keys are fifteen distinct keys. */
  lemma FixedKeysCount()
    ensures |BaseKeys + MetadataKeys| == 15
  {
    assert |BaseKeys| == 11;
    assert |MetadataKeys| == 4;
    assert BaseKeys !! MetadataKeys;
  }

  /** Without a Device the bundle has exactly the fifteen base and metadata keys. */
  lemma AbsentDeviceBundle(g: Globals, t: Tracker, h: Helpers)
    requires t.device.None?
    ensures var r := ExtraAttributes(g, t, h);
            r.Some? && r.value.Keys == BaseKeys + MetadataKeys && |r.value| == 15
  {
    var r := ExtraAttributes(g, t, h).value;
    BundleKeys(g, t, h);
    forall k ensures k in r <==> k in BaseKeys + MetadataKeys {
      InBundleWithoutDevice(t, k);
    }
    assert r.Keys == BaseKeys + MetadataKeys;
    FixedKeysCount();
  }
}

=== FILE: consts.dfy ===
/**
 * Marker strings and sensor names the device tracker imports from the
 * integration's const.py, which is not part of this model. The spellings below
 * are stand-ins; no proof depends on them except where a lemma says so.
 */
module Consts {

  /** The zone name of the home zone. */
  const Home: string := "home"

  /** The internal "not set" marker and its display form. */
  const NotSet: string := "not_set"
  const NotSetFname: string := "NotSet"

  /** The placeholder shown for a sensor that has no value. */
  const BlankSensorField: string := "———"

  /** The display label of a stationary pseudo-zone. */
  const StationaryFname: string := "Stationary"

  /** The tracking mode of a configured device that gets no tracker. */
  const InactiveDevice: string := "inactive"

  /** The namespace tag of this integration's device-registry identifiers (a literal in the code). */
  const IntegrationTag: string := "iCloud3"

  /** Sensor names read by the device tracker. */
  const LocationSource: string := "location_source"
  const DeviceStatus: string := "device_status"
  const Name: string := "name"
  const Picture: string := "picture"
  const Zone: string := "zone"
  const LastZone: string := "last_zone"
  const ZoneDatetime: string := "zone_datetime"
  const LastLocatedDatetime: string := "last_located_datetime"
  const LastUpdateDatetime: string := "last_update_datetime"
  const HomeDistance: string := "home_distance"
  const DistanceToDevices: string := "distance_to_devices"
  const NextUpdateDatetime: string := "next_update_datetime"
  const Trigger: string := "trigger"
  const FromZone: string := "from_zone"
  const WazeDistance: string := "waze_distance"
  const CalcDistance: string := "calc_distance"
  const DeviceTrackerStateValue: string := "device_tracker_state_value"
  const DeviceTrackerStateZone: string := "device_tracker_state_zone"
}

=== FILE: entities.dfy ===
/** The data the device tracker entity reads: Python values, the live Device, the restore snapshot, the configuration. */
module Entities {
  import opened Wrappers

  /**
   * A Python value as found in a sensor dict, an attribute dict or the restore
   * snapshot. Numbers carry the text `str()` gives them: the tracker never does
   * arithmetic on them. `VOther` is an object without str methods (a list, a bool, ...).
   */
  datatype Value = VNone | VStr(s: string) | VNum(repr: string) | VOther(repr: string)

  /** The Python integer `0`, the default of a numeric request. */
  const Zero: Value := VNum("0")

  /** `f"{v}"`, the text a value is formatted as. */
  function Display(v: Value): string {
    match v
    case VNone => "None"
    case VStr(s) => s
    case VNum(r) => r
    case VOther(r) => r
  }

  /** The live Device object the tracker reads; owned by code outside this model. */
  datatype Device = Device(
    sensors: map<string, Value>,
    attrs: map<string, Value>,
    isTracked: bool,
    trackFromZones: seq<string>,
    trackFromBaseZone: string)

  /** `Gb.restore_state_devices`: devicename -> section (such as 'sensors') -> sensor -> value. */
  type Snapshot = map<string, map<string, map<string, Value>>>

  /** One entry of `Gb.conf_devices`. */
  datatype ConfDevice = ConfDevice(
    devicename: string,
    trackingMode: string,
    fname: string,
    deviceType: string,
    rawModel: string,
    model: string,
    modelDisplayName: string)

  /**
   * One device_tracker entity. `device` is the Device reference, absent until the
   * Device has been built; `fromStateZone` is absent while the Python attribute
   * `from_state_zone` has never been assigned.
   */
  datatype Tracker = Tracker(
    devicename: string,
    conf: ConfDevice,
    device: Option<Device>,
    defaultValue: Value,
    fromStateZone: Option<Value>,
    toStateZone: Value)

  /** The process-wide values the entity reads from `Gb`. */
  datatype Globals = Globals(
    restore: Snapshot,
    version: string,
    versionEvlog: string,
    icloud3Directory: string,
    trackedDevicenames: seq<string>)

  /**
   * The helpers imported from helpers/common, whose code is not part of this
   * model: any total function is a possible helper, and one that raises returns
   * `Raised`.
   */
  datatype Helpers = Helpers(
    instr: (Value, string) -> Attempt<bool>,
    isNumber: Value -> Attempt<bool>,
    isStatZone: string -> Attempt<bool>,
    zoneDisplayAs: string -> Attempt<string>)
}

=== FILE: pystr.dfy ===
/** The few Python `str` operations the device tracker relies on. */
module PyStr {

  /** `c.isspace()`: the code points that `str.strip()` removes when called without arguments. */
  predicate IsSpace(c: char) {
    var n := c as int;
    || (0x09 <= n <= 0x0D)
    || (0x1C <= n <= 0x20)
    || n == 0x85
    || n == 0xA0
    || n == 0x1680
    || (0x2000 <= n <= 0x200A)
    || n == 0x2028
    || n == 0x2029
    || n == 0x202F
    || n == 0x205F
    || n == 0x3000
  }

  /** Every character of `s` is whitespace (the empty string included). */
  predicate AllSpace(s: string) {
    forall i :: 0 <= i < |s| ==> IsSpace(s[i])
  }

  /** `s.lstrip()`: the longest suffix of `s` that does not start with whitespace. */
  function LStrip(s: string): (r: string)
    ensures |r| <= |s| && r == s[|s| - |r|..]
    ensures r == [] || !IsSpace(r[0])
    ensures AllSpace(s[..|s| - |r|])
    decreases |s|
  {
    if s != [] && IsSpace(s[0]) then LStrip(s[1..]) else s
  }

  /** `s.rstrip()`: the longest prefix of `s` that does not end with whitespace. */
  function RStrip(s: string): (r: string)
    ensures |r| <= |s| && r == s[..|r|]
    ensures r == [] || !IsSpace(r[|r| - 1])
    ensures AllSpace(s[|r|..])
    decreases |s|
  {
    if s != [] && IsSpace(s[|s| - 1]) then RStrip(s[..|s| - 1]) else s
  }

  /** `s.strip()`. */
  function Strip(s: string): string {
    RStrip(LStrip(s))
  }

  /** `s.strip() == ''` holds exactly for the strings made only of whitespace. */
  lemma StripEmptyIffAllSpace(s: string)
    ensures Strip(s) == "" <==> AllSpace(s)
  {
    var l := LStrip(s);
    if Strip(s) == "" {
      assert AllSpace(l[0..]);
      assert s == s[..|s| - |l|] + l;
    }
  }

  /** `s.startswith(prefix)`. */
  predicate StartsWith(s: string, prefix: string) {
    |prefix| <= |s| && s[..|prefix|] == prefix
  }

  /** `s.split(' ')[0]`: the text before the first space, or all of `s` when it has none. */
  function FirstField(s: string): (r: string)
    ensures StartsWith(s, r)
    ensures ' ' !in r
    ensures |r| < |s| ==> s[|r|] == ' '
    ensures ' ' !in s ==> r == s
    decreases |s|
  {
    if s == [] || s[0] == ' ' then [] else [s[0]] + FirstField(s[1..])
  }

  /** `sep.join(xs)`. */
  function Join(xs: seq<string>, sep: string): (r: string)
    ensures xs == [] ==> r == ""
    ensures |xs| == 1 ==> r == xs[0]
    decreases |xs|
  {
    if xs == [] then ""
    else if |xs| == 1 then xs[0]
    else xs[0] + sep + Join(xs[1..], sep)
  }
}

=== FILE: registry.dfy ===
/**
 * `_get_ha_device_ids_from_device_registry`: binding each configured devicename
 * to the id of the Home Assistant device-registry entry that names it.
 */
module Registry {
  import opened Wrappers
  import Consts

  /**
   * One identifier of a device-registry entry: a tuple of strings, or
   * `Unreadable`, one on which the membership test `'iCloud3' in identifiers`
   * raises.
   */
  datatype Identifier = Tuple(items: seq<string>) | Unreadable

  /** A device-registry entry: its id and its identifiers, in the order the entry's set yields them. */
  datatype DeviceEntry = DeviceEntry(id: string, identifiers: seq<Identifier>)

  /** The registry's deleted devices and active devices, each in iteration order. */
  datatype DeviceRegistry = DeviceRegistry(deletedDevices: seq<DeviceEntry>, devices: seq<DeviceEntry>)

  /** The first member of a tuple that is a configured devicename. */
  function FirstConfigured(items: seq<string>, confDevicenames: seq<string>): (r: Option<string>)
    ensures r.None? <==> forall i :: 0 <= i < |items| ==> items[i] !in confDevicenames
    ensures r.Some? ==>
              exists i :: && 0 <= i < |items| && items[i] == r.value && r.value in confDevicenames
                          && forall j :: 0 <= j < i ==> items[j] !in confDevicenames
    decreases |items|
  {
    if items == [] then None
    else if items[0] in confDevicenames then Some(items[0])
    else
      var r := FirstConfigured(items[1..], confDevicenames);
      assert forall i :: 1 <= i < |items| ==> items[i] == items[1..][i - 1];
      if r.Some? then
        var i :| && 0 <= i < |items[1..]| && items[1..][i] == r.value
                 && forall j :: 0 <= j < i ==> items[1..][j] !in confDevicenames;
        assert items[i + 1] == r.value;
        r
      else r
  }

  /** The devicename one tuple binds: its first configured member, when the tuple carries the integration tag. */
  function TupleBinding(items: seq<string>, confDevicenames: seq<string>): Option<string> {
    if Consts.IntegrationTag in items then FirstConfigured(items, confDevicenames) else None
  }

  /**
   * The devicenames an entry's identifiers bind: one per tagged tuple that has a
   * configured member, up to the first unreadable identifier.
   */
  function BoundNames(ids: seq<Identifier>, confDevicenames: seq<string>): (r: set<string>)
    ensures forall n :: n in r ==> n in confDevicenames
    decreases |ids|
  {
    if ids == [] then {}
    else match ids[0]
      case Unreadable => {}
      case Tuple(items) =>
        (match TupleBinding(items, confDevicenames) case Some(n) => {n} case None => {})
        + BoundNames(ids[1..], confDevicenames)
  }

  /**
   * The loop over an entry's identifiers: every name the identifiers bind is
   * bound to the entry's id, and nothing else changes. An unreadable identifier
   * ends the entry; the bindings made before it stay.
   */
  function ScanIdentifiers(m: map<string, string>, confDevicenames: seq<string>, id: string,
                           ids: seq<Identifier>): (r: map<string, string>)
    ensures forall n :: Lookup(r, n) == if n in BoundNames(ids, confDevicenames) then Some(id) else Lookup(m, n)
    decreases |ids|
  {
    if ids == [] then m
    else match ids[0]
      case Unreadable => m
      case Tuple(items) =>
        var m' := BindTuple(m, confDevicenames, id, items);
        ScanIdentifiers(m', confDevicenames, id, ids[1..])
  }

  /** One tagged tuple's binding, added to the map. */
  function BindTuple(m: map<string, string>, confDevicenames: seq<string>, id: string, items: seq<string>)
    : (r: map<string, string>)
    ensures forall n :: Lookup(r, n) == if TupleBinding(items, confDevicenames) == Some(n) then Some(id) else Lookup(m, n)
  {
    match TupleBinding(items, confDevicenames)
    case Some(n) => m[n := id]
    case None => m
  }

  /** `_get_ha_device_id_from_device_entry`. */
  function ProcessEntry(m: map<string, string>, confDevicenames: seq<string>, e: DeviceEntry): map<string, string> {
    ScanIdentifiers(m, confDevicenames, e.id, e.identifiers)
  }

  /** The entry's binding of `n`, if the entry binds it. */
  function EntryBinding(confDevicenames: seq<string>, e: DeviceEntry, n: string): Option<string> {
    if n in BoundNames(e.identifiers, confDevicenames) then Some(e.id) else None
  }

  /** The id the last entry of `es` that binds `n` gives it: later entries win. */
  function LastBinding(confDevicenames: seq<string>, es: seq<DeviceEntry>, n: string): (r: Option<string>)
    ensures r.Some? ==> n in confDevicenames
    decreases |es|
  {
    if es == [] then None
    else LastBinding(confDevicenames, es[1..], n).Or(EntryBinding(confDevicenames, es[0], n))
  }

  /** The loop over one collection of entries: each name ends up with its last binding, or keeps its old value. */
  function ScanEntries(m: map<string, string>, confDevicenames: seq<string>, es: seq<DeviceEntry>): (r: map<string, string>)
    ensures forall n :: Lookup(r, n) == LastBinding(confDevicenames, es, n).Or(Lookup(m, n))
    decreases |es|
  {
    if es == [] then m
    else ScanEntries(ProcessEntry(m, confDevicenames, es[0]), confDevicenames, es[1..])
  }

  /**
   * `_get_ha_device_ids_from_device_registry`: deleted entries first, then
   * active ones, from an empty map, so an active entry's binding overrides a
   * deleted entry's binding of the same devicename.
   */
  function Reconcile(confDevicenames: seq<string>, reg: DeviceRegistry): (r: map<string, string>)
    ensures forall n :: Lookup(r, n)
                        == LastBinding(confDevicenames, reg.devices, n).Or(LastBinding(confDevicenames, reg.deletedDevices, n))
    ensures forall n :: n in r ==> n in confDevicenames
  {
    var r := ScanEntries(ScanEntries(map[], confDevicenames, reg.deletedDevices), confDevicenames, reg.devices);
    assert forall n | n in r :: Lookup(r, n).Some?;
    r
  }

  /** A registry with no entries binds no devicename: every earlier binding is dropped. */
  lemma EmptyRegistryBindsNothing(confDevicenames: seq<string>)
    ensures Reconcile(confDevicenames, DeviceRegistry([], [])) == map[]
  {
    var r := Reconcile(confDevicenames, DeviceRegistry([], []));
    forall n ensures n !in r {
      assert Lookup(r, n).None?;
    }
  }

  /** A binding by an active entry wins over every deleted entry. */
  lemma ActiveOverridesDeleted(confDevicenames: seq<string>, reg: DeviceRegistry, n: string, id: string)
    requires LastBinding(confDevicenames, reg.devices, n) == Some(id)
    ensures n in Reconcile(confDevicenames, reg) && Reconcile(confDevicenames, reg)[n] == id
  {
    assert Lookup(Reconcile(confDevicenames, reg), n) == Some(id);
  }

  /**
   * A device that was deleted and added again: the deleted and the active entry
   * name the same devicename with different ids, and the active id wins.
   */
  lemma ReaddedDeviceKeepsActiveId()
    ensures var tuple := Tuple(["iCloud3", "gary_iphone", "iPhone 14 Pro"]);
            var reg := DeviceRegistry([DeviceEntry("deleted-id", [tuple])], [DeviceEntry("active-id", [tuple])]);
            Reconcile(["gary_iphone"], reg) == map["gary_iphone" := "active-id"]
  {
    var tuple := Tuple(["iCloud3", "gary_iphone", "iPhone 14 Pro"]);
    var reg := DeviceRegistry([DeviceEntry("deleted-id", [tuple])], [DeviceEntry("active-id", [tuple])]);
    assert FirstConfigured(tuple.items, ["gary_iphone"]) == Some("gary_iphone") by {
      assert tuple.items[0] !in ["gary_iphone"];
      assert tuple.items[1..][0] == "gary_iphone";
    }
    assert BoundNames([tuple], ["gary_iphone"]) == {"gary_iphone"};
    var r := Reconcile(["gary_iphone"], reg);
    assert Lookup(r, "gary_iphone") == Some("active-id");
    assert forall n :: n in r ==> n == "gary_iphone";
  }

  /**
   * The `break` leaves only the loop over one tuple's members: an entry with two
   * tagged tuples binds a devicename from each.
   */
  lemma TwoTaggedTuplesBindTwoNames()
    ensures ProcessEntry(map[], ["a", "b"], DeviceEntry("id", [Tuple(["iCloud3", "a"]), Tuple(["iCloud3", "b"])]))
            == map["a" := "id", "b" := "id"]
  {
    assert FirstConfigured(["iCloud3", "a"], ["a", "b"]) == Some("a") by {
      assert ["iCloud3", "a"][1..] == ["a"];
    }
    assert FirstConfigured(["iCloud3", "b"], ["a", "b"]) == Some("b") by {
      assert ["iCloud3", "b"][1..] == ["b"];
    }
  }

  /** An unreadable identifier ends its entry: the names bound before it stay, the ones after it are not bound. */
  lemma UnreadableIdentifierEndsEntry()
    ensures ProcessEntry(map[], ["a", "b"], DeviceEntry("id", [Tuple(["iCloud3", "a"]), Unreadable, Tuple(["iCloud3", "b"])]))
            == map["a" := "id"]
  {
    assert FirstConfigured(["iCloud3", "a"], ["a", "b"]) == Some("a") by {
      assert ["iCloud3", "a"][1..] == ["a"];
    }
  }

  /**
   * What happens inside one entry touches only the names that entry binds: two
   * entry lists that differ at position `j` only give every other name the same
   * last binding.
   */
  lemma {:induction false} EntryFailureIsolated(confDevicenames: seq<string>, es: seq<DeviceEntry>,
                                                es': seq<DeviceEntry>, j: nat, n: string)
    requires |es| == |es'| && j < |es|
    requires forall i :: 0 <= i < |es| && i != j ==> es[i] == es'[i]
    requires n !in BoundNames(es[j].identifiers, confDevicenames)
    requires n !in BoundNames(es'[j].identifiers, confDevicenames)
    ensures LastBinding(confDevicenames, es, n) == LastBinding(confDevicenames, es', n)
    decreases j
  {
    if j == 0 {
      assert es[1..] == es'[1..];
    } else {
      assert es[0] == es'[0];
      EntryFailureIsolated(confDevicenames, es[1..], es'[1..], j - 1, n);
    }
  }

  /** Hence the scan of one collection gives every name the entry at `j` does not bind the same value. */
  lemma ScanEntriesIsolated(m: map<string, string>, confDevicenames: seq<string>, es: seq<DeviceEntry>,
                            es': seq<DeviceEntry>, j: nat, n: string)
    requires |es| == |es'| && j < |es|
    requires forall i :: 0 <= i < |es| && i != j ==> es[i] == es'[i]
    requires n !in BoundNames(es[j].identifiers, confDevicenames)
    requires n !in BoundNames(es'[j].identifiers, confDevicenames)
    ensures Lookup(ScanEntries(m, confDevicenames, es), n) == Lookup(ScanEntries(m, confDevicenames, es'), n)
  {
    EntryFailureIsolated(confDevicenames, es, es', j, n);
  }

  /** An entry that binds nothing can be dropped without changing any name's last binding. */
  lemma {:induction false} UnmatchedEntryAddsNothing(confDevicenames: seq<string>, es: seq<DeviceEntry>, j: nat, n: string)
    requires j < |es| && BoundNames(es[j].identifiers, confDevicenames) == {}
    ensures LastBinding(confDevicenames, es, n) == LastBinding(confDevicenames, es[..j] + es[j + 1..], n)
    decreases j
  {
    if j == 0 {
      assert es[..0] + es[1..] == es[1..];
    } else {
      var rest := es[..j] + es[j + 1..];
      assert rest[0] == es[0];
      assert rest[1..] == es[1..][..j - 1] + es[1..][j..];
      UnmatchedEntryAddsNothing(confDevicenames, es[1..], j - 1, n);
    }
  }

  /** The loops of `_get_ha_device_id_from_device_entry`, as the source writes them. */
  method GetHaDeviceIdFromEntry(ids: map<string, string>, confDevicenames: seq<string>, e: DeviceEntry)
    returns (r: map<string, string>)
    ensures r == ProcessEntry(ids, confDevicenames, e)
  {
    r := ids;
    var j := 0;
    while j < |e.identifiers|
      invariant 0 <= j <= |e.identifiers|
      invariant ScanIdentifiers(r, confDevicenames, e.id, e.identifiers[j..]) == ProcessEntry(ids, confDevicenames, e)
    {
      match e.identifiers[j]
      case Unreadable =>
        // the exception is swallowed by the `except`; the bindings made so far stay
        return;
      case Tuple(items) =>
        if Consts.IntegrationTag in items {
          var k := 0;
          while k < |items| && items[k] !in confDevicenames
            invariant 0 <= k <= |items|
            invariant forall i :: 0 <= i < k ==> items[i] !in confDevicenames
          {
            k := k + 1;
          }
          if k < |items| {
            r := r[items[k] := e.id];
          }
        }
      assert e.identifiers[j..][1..] == e.identifiers[j + 1..];
      j := j + 1;
    }
  }

  /** The loops of `_get_ha_device_ids_from_device_registry`, as the source writes them. */
  method GetHaDeviceIds(confDevicenames: seq<string>, reg: DeviceRegistry) returns (ids: map<string, string>)
    ensures ids == Reconcile(confDevicenames, reg)
  {
    ids := map[];
    var deleted := ScanEntries(map[], confDevicenames, reg.deletedDevices);
    for i := 0 to |reg.deletedDevices|
      invariant ScanEntries(ids, confDevicenames, reg.deletedDevices[i..]) == deleted
    {
      assert reg.deletedDevices[i..][1..] == reg.deletedDevices[i + 1..];
      ids := GetHaDeviceIdFromEntry(ids, confDevicenames, reg.deletedDevices[i]);
    }
    var all := ScanEntries(deleted, confDevicenames, reg.devices);
    for i := 0 to |reg.devices|
      invariant ScanEntries(ids, confDevicenames, reg.devices[i..]) == all
    {
      assert reg.devices[i..][1..] == reg.devices[i + 1..];
      ids := GetHaDeviceIdFromEntry(ids, confDevicenames, reg.devices[i]);
    }
  }
}

=== FILE: resolver.dfy ===
/**
 * The sensor-value ladder of the device_tracker entity: the live Device when it
 * exists, otherwise the restore snapshot, otherwise a typed default; and the
 * "state not set" test that decides what `location_name` shows.
 */
module Resolver {
  import opened Wrappers
  import opened PyStr
  import opened Consts
  import opened Entities

  /** `not_set_value`: `0` for a numeric request, the blank placeholder otherwise. */
  function NotSetValue(number: bool): Value {
    if number then Zero else VStr(BlankSensorField)
  }

  /** The restore snapshot holds a value for `sensor` of `devicename`. */
  predicate InSnapshot(restore: Snapshot, devicename: string, sensor: string) {
    devicename in restore && "sensors" in restore[devicename] && sensor in restore[devicename]["sensors"]
  }

  /** `Gb.restore_state_devices[devicename]['sensors'][sensor]`, raising KeyError on a missing key. */
  function RestoreLookup(restore: Snapshot, devicename: string, sensor: string): Attempt<Value> {
    if devicename !in restore then Raised
    else if "sensors" !in restore[devicename] then Raised
    else if sensor !in restore[devicename]["sensors"] then Raised
    else Returned(restore[devicename]["sensors"][sensor])
  }

  /** `_get_restore_or_default_value`: the snapshot's value, or `notSet` when the lookup raises. */
  function RestoreOrDefault(restore: Snapshot, devicename: string, sensor: string, notSet: Value): (r: Value)
    ensures InSnapshot(restore, devicename, sensor) ==> r == restore[devicename]["sensors"][sensor]
    ensures !InSnapshot(restore, devicename, sensor) ==> r == notSet
  {
    RestoreLookup(restore, devicename, sensor).Recover(notSet)
  }

  /** `self.Device.sensors.get(sensor, None)`. */
  function RawSensor(d: Device, sensor: string): Value {
    if sensor in d.sensors then d.sensors[sensor] else VNone
  }

  /**
   * The value the classification sees: a numeric request keeps only the text
   * before the first space, when `instr` finds one; otherwise the reading is
   * kept whole. Cutting raises when `instr` does, or when it finds a space in
   * something that is not a string.
   */
  function NumericToken(h: Helpers, v: Value, number: bool): (r: Attempt<Value>)
    ensures r.Raised? <==> number && (h.instr(v, " ").Raised? || (h.instr(v, " ") == Returned(true) && !v.VStr?))
    ensures (!number || h.instr(v, " ") == Returned(false)) ==> r == Returned(v)
    ensures (number && h.instr(v, " ") == Returned(true) && v.VStr?) ==> r == Returned(VStr(FirstField(v.s)))
  {
    if !number then Returned(v)
    else
      var hasSpace :- h.instr(v, " ");
      if !hasSpace then Returned(v)
      else match v
        case VStr(s) => Returned(VStr(FirstField(s)))
        case _ => Raised  // a number or an object without str methods has no `split`
  }

  /**
   * The classification of a value: numbers pass, unset values become the blank
   * placeholder, stationary zones become their label, the rest passes.
   */
  function Normalise(h: Helpers, v: Value): (r: Attempt<Value>)
    ensures h.isNumber(v) == Returned(true) ==> r == Returned(v)
    ensures (h.isNumber(v) == Returned(false) && (v.VNone? || (v.VStr? && (AllSpace(v.s) || v.s == NotSet))))
              ==> r == Returned(VStr(BlankSensorField))
    ensures (h.isNumber(v) == Returned(false) && v.VStr? && !AllSpace(v.s) && v.s != NotSet)
              ==> (h.isStatZone(v.s) == Returned(true) ==> r == Returned(VStr(StationaryFname)))
                  && (h.isStatZone(v.s) == Returned(false) ==> r == Returned(v))
    ensures r.Raised? <==>
              || h.isNumber(v).Raised?
              || (h.isNumber(v) == Returned(false) && (v.VNum? || v.VOther?))
              || (h.isNumber(v) == Returned(false) && v.VStr? && !AllSpace(v.s) && v.s != NotSet
                  && h.isStatZone(v.s).Raised?)
  {
    var isNum :- h.isNumber(v);
    if isNum then Returned(v)
    else match v
      case VNone => Returned(VStr(BlankSensorField))
      case VStr(s) =>
        StripEmptyIffAllSpace(s);
        if Strip(s) == "" || s == NotSet then Returned(VStr(BlankSensorField))
        else
          var statZone :- h.isStatZone(s);
          Returned(if statZone then VStr(StationaryFname) else v)
      case _ => Raised  // a number or an object without str methods has no `strip`
  }

  /** The live branch of `_get_sensor_value`, before its `except` substitutes the default. */
  function LiveSensorValue(d: Device, h: Helpers, sensor: string, number: bool): Attempt<Value> {
    var v :- NumericToken(h, RawSensor(d, sensor), number);
    Normalise(h, v)
  }

  /**
   * `_get_sensor_value`. Without a Device the snapshot value comes back as it
   * is; with one, the result is the raw value, its leading token, a
   * normalised marker or the typed default, and nothing else.
   */
  function SensorValue(restore: Snapshot, t: Tracker, h: Helpers, sensor: string, number: bool): (r: Value)
    ensures (t.device.None? && InSnapshot(restore, t.devicename, sensor))
              ==> r == restore[t.devicename]["sensors"][sensor]
    ensures t.device.None? && !InSnapshot(restore, t.devicename, sensor) ==> r == NotSetValue(number)
    ensures t.device.Some? ==>
              var raw := RawSensor(t.device.value, sensor);
              || r in {NotSetValue(number), VStr(BlankSensorField), VStr(StationaryFname), raw}
              || (number && raw.VStr? && r == VStr(FirstField(raw.s)))
  {
    var notSet := NotSetValue(number);
    match t.device
    case None => RestoreOrDefault(restore, t.devicename, sensor, notSet)
    case Some(d) => LiveSensorValue(d, h, sensor, number).Recover(notSet)
  }

  /** `_get_attribute_value`: a non-blank string attribute of the Device, otherwise `0`. */
  function AttributeValue(t: Tracker, attribute: string): (r: Value)
    ensures t.device.None? ==> r == Zero
    ensures r != Zero ==>
              && t.device.Some? && attribute in t.device.value.attrs && r == t.device.value.attrs[attribute]
              && r.VStr? && !AllSpace(r.s) && r.s != NotSet
    ensures (&& t.device.Some? && attribute in t.device.value.attrs
             && t.device.value.attrs[attribute].VStr?
             && !AllSpace(t.device.value.attrs[attribute].s) && t.device.value.attrs[attribute].s != NotSet)
              ==> r == t.device.value.attrs[attribute]
  {
    match t.device
    case None => Zero
    case Some(d) =>
      var attr := if attribute in d.attrs then d.attrs[attribute] else VNone;
      match attr
      case VNone => Zero
      case VStr(s) =>
        StripEmptyIffAllSpace(s);
        if Strip(s) == "" || s == NotSet then Zero else attr
      case _ => Zero  // `strip` of a number raises and the `except` returns 0
  }

  /** The text forms that count as "state not set". */
  predicate IsUnsetText(s: string) {
    StartsWith(s, BlankSensorField) || AllSpace(s) || s == NotSet || s == NotSetFname
  }

  /** `state_value_not_set`: no Device yet, or a state value that is an unset text. */
  function StateValueNotSet(restore: Snapshot, t: Tracker, h: Helpers): (r: bool)
    ensures t.device.None? ==> r
    ensures t.device.Some? ==>
              (r <==> var v := SensorValue(restore, t, h, DeviceTrackerStateValue, false); v.VStr? && IsUnsetText(v.s))
  {
    var stateValue := SensorValue(restore, t, h, DeviceTrackerStateValue, false);
    if t.device.None? then true
    else match stateValue
      case VStr(s) =>
        StripEmptyIffAllSpace(s);
        StartsWith(s, BlankSensorField) || Strip(s) == "" || s == NotSet || s == NotSetFname
      case _ => false
  }

  /** `location_name`: the entity's default value unless a set state value is available. */
  function LocationName(restore: Snapshot, t: Tracker, h: Helpers): (r: Value)
    ensures t.device.None? ==> r == t.defaultValue
    ensures StateValueNotSet(restore, t, h) ==> r == t.defaultValue
    ensures r == t.defaultValue
            || (r == SensorValue(restore, t, h, DeviceTrackerStateValue, false) && !(r.VStr? && IsUnsetText(r.s)))
    ensures var v := SensorValue(restore, t, h, DeviceTrackerStateValue, false);
            t.device.Some? && !(v.VStr? && IsUnsetText(v.s)) ==> r == v
  {
    if StateValueNotSet(restore, t, h) then t.defaultValue
    else SensorValue(restore, t, h, DeviceTrackerStateValue, false)
  }

  /**
   * A numeric request for a reading with a space cuts it to the text before the
   * first space, still a string, and classifies that token as it would any
   * reading: a token `isnumber` accepts comes back as it is, and a failure on
   * the token gives 0.
   */
  lemma NumericRequestKeepsLeadingToken(restore: Snapshot, t: Tracker, h: Helpers, sensor: string, s: string)
    requires t.device.Some? && RawSensor(t.device.value, sensor) == VStr(s)
    requires h.instr(VStr(s), " ") == Returned(true)
    ensures var token := FirstField(s);
            && StartsWith(s, token) && ' ' !in token
            && (|token| < |s| ==> s[|token|] == ' ')
            && SensorValue(restore, t, h, sensor, true) == Normalise(h, VStr(token)).Recover(NotSetValue(true))
            && (h.isNumber(VStr(token)) == Returned(true) ==> SensorValue(restore, t, h, sensor, true) == VStr(token))
  {
  }

  /** The reading "37.5 mph" of a numeric request resolves to the string "37.5". */
  lemma SpeedReadingKeepsNumber(restore: Snapshot, t: Tracker, h: Helpers, sensor: string)
    requires t.device.Some? && RawSensor(t.device.value, sensor) == VStr("37.5 mph")
    requires h.instr(VStr("37.5 mph"), " ") == Returned(true)
    requires h.isNumber(VStr("37.5")) == Returned(true)
    ensures SensorValue(restore, t, h, sensor, true) == VStr("37.5")
  {
    SpeedLeadingToken();
    NumericRequestKeepsLeadingToken(restore, t, h, sensor, "37.5 mph");
  }

  /** The leading token of "37.5 mph" is "37.5". */
  lemma SpeedLeadingToken()
    ensures FirstField("37.5 mph") == "37.5"
  {
    assert "37.5 mph"[4] == ' ';
    assert "37.5 mph"[..4] == "37.5";
  }

  // The classification lemmas below are stated about the token `v` that
  // `NumericToken` leaves: the reading itself, or for a numeric request that
  // `instr` cuts, the text before its first space.

  /** A live token that is None, whitespace or the "not set" marker shows the blank placeholder, even for a numeric request. */
  lemma UnsetReadingShowsBlank(restore: Snapshot, t: Tracker, h: Helpers, sensor: string, number: bool, v: Value)
    requires t.device.Some? && NumericToken(h, RawSensor(t.device.value, sensor), number) == Returned(v)
    requires h.isNumber(v) == Returned(false) && (v.VNone? || (v.VStr? && (AllSpace(v.s) || v.s == NotSet)))
    ensures SensorValue(restore, t, h, sensor, number) == VStr(BlankSensorField)
  {
  }

  /**
   * A blank reading of a numeric request in which `instr` finds the space is
   * cut to the empty token and shows the blank placeholder, not 0.
   */
  lemma BlankNumericReadingShowsBlank(restore: Snapshot, t: Tracker, h: Helpers, sensor: string)
    requires t.device.Some? && RawSensor(t.device.value, sensor) == VStr(" ")
    requires h.instr(VStr(" "), " ") == Returned(true) && h.isNumber(VStr("")) == Returned(false)
    ensures SensorValue(restore, t, h, sensor, true) == VStr(BlankSensorField)
  {
    assert FirstField(" ") == "" by {
      assert " "[0] == ' ';
    }
    UnsetReadingShowsBlank(restore, t, h, sensor, true, VStr(""));
  }

  /** A live token naming a stationary zone shows the stationary label. */
  lemma StationaryReadingShowsLabel(restore: Snapshot, t: Tracker, h: Helpers, sensor: string, number: bool, v: Value)
    requires t.device.Some? && NumericToken(h, RawSensor(t.device.value, sensor), number) == Returned(v)
    requires && h.isNumber(v) == Returned(false)
             && v.VStr? && !AllSpace(v.s) && v.s != NotSet
             && h.isStatZone(v.s) == Returned(true)
    ensures SensorValue(restore, t, h, sensor, number) == VStr(StationaryFname)
  {
  }

  /** A live token `isnumber` accepts comes back unchanged, whatever its type. */
  lemma NumberLikeReadingPassesThrough(restore: Snapshot, t: Tracker, h: Helpers, sensor: string, number: bool, v: Value)
    requires t.device.Some? && NumericToken(h, RawSensor(t.device.value, sensor), number) == Returned(v)
    requires h.isNumber(v) == Returned(true)
    ensures SensorValue(restore, t, h, sensor, number) == v
  {
  }

  /** Any other live text token comes back unchanged. */
  lemma OtherReadingPassesThrough(restore: Snapshot, t: Tracker, h: Helpers, sensor: string, number: bool, v: Value)
    requires t.device.Some? && NumericToken(h, RawSensor(t.device.value, sensor), number) == Returned(v)
    requires && h.isNumber(v) == Returned(false)
             && v.VStr? && !AllSpace(v.s) && v.s != NotSet
             && h.isStatZone(v.s) == Returned(false)
    ensures SensorValue(restore, t, h, sensor, number) == v
  {
  }

  /**
   * A failure while resolving a live reading yields the typed default: cutting
   * it raises (`instr` raises, or a non-string would be split), or, on the
   * token, `isnumber` or `is_statzone` raises or a value that is neither None,
   * a string nor accepted by `isnumber` would be stripped.
   */
  lemma FailingReadingShowsDefault(restore: Snapshot, t: Tracker, h: Helpers, sensor: string, number: bool, v: Value)
    requires t.device.Some?
    requires var token := NumericToken(h, RawSensor(t.device.value, sensor), number);
             || token.Raised?
             || (token == Returned(v) && h.isNumber(v).Raised?)
             || (token == Returned(v) && h.isNumber(v) == Returned(false) && (v.VNum? || v.VOther?))
             || (&& token == Returned(v) && h.isNumber(v) == Returned(false)
                 && v.VStr? && !AllSpace(v.s) && v.s != NotSet && h.isStatZone(v.s).Raised?)
    ensures SensorValue(restore, t, h, sensor, number) == NotSetValue(number)
  {
  }

  /**
   * The snapshot is not classified: a "not set" marker restored from it comes
   * back as it is, where the same live reading would show the blank placeholder.
   */
  lemma SnapshotSkipsNormalisation(restore: Snapshot, t: Tracker, h: Helpers, sensor: string)
    requires t.device.Some? && RawSensor(t.device.value, sensor) == VStr(NotSet)
    requires h.isNumber(VStr(NotSet)) == Returned(false)
    requires InSnapshot(restore, t.devicename, sensor) && restore[t.devicename]["sensors"][sensor] == VStr(NotSet)
    ensures SensorValue(restore, t.(device := None), h, sensor, false) == VStr(NotSet)
    ensures SensorValue(restore, t, h, sensor, false) == VStr(BlankSensorField)
  {
  }

  /** A numeric attribute of the Device reads as `0`: `strip` raises on it and the `except` substitutes 0. */
  lemma NumericAttributeReadsZero(t: Tracker, attribute: string)
    requires t.device.Some? && attribute in t.device.value.attrs && t.device.value.attrs[attribute].VNum?
    ensures AttributeValue(t, attribute) == Zero
  {
  }

  /**
   * A live state reading that is None, blank, a "not set" marker or text that
   * starts with the blank placeholder makes `location_name` fall back to the
   * entity's default value.
   */
  lemma UnsetStateShowsDefault(restore: Snapshot, t: Tracker, h: Helpers)
    requires t.device.Some?
    requires var raw := RawSensor(t.device.value, DeviceTrackerStateValue);
             && h.isNumber(raw) == Returned(false)
             && (raw.VNone? || (raw.VStr? && IsUnsetText(raw.s)))
             && (raw.VStr? ==> h.isStatZone(raw.s) != Returned(true))
    ensures StateValueNotSet(restore, t, h)
    ensures LocationName(restore, t, h) == t.defaultValue
  {
    var raw := RawSensor(t.device.value, DeviceTrackerStateValue);
    if raw.VStr? && !AllSpace(raw.s) && raw.s != NotSet && h.isStatZone(raw.s).Raised? {
      assert SensorValue(restore, t, h, DeviceTrackerStateValue, false) == VStr(BlankSensorField);
      assert StartsWith(BlankSensorField, BlankSensorField);
    }
  }
}

=== FILE: setup.dfy ===
/**
 * `async_setup_entry` and the entity constructor: which configured devices get
 * a device_tracker entity, and what the new entities start with.
 */
module Setup {
  import opened Wrappers
  import opened Entities
  import Consts
  import Resolver
  import Registry

  /** The `Gb` values setup reads and writes. */
  datatype SetupState = SetupState(
    confDevicenames: seq<string>,
    trackers: map<string, Tracker>,
    trackersCnt: nat,
    createdCnt: nat,
    haDeviceIds: map<string, string>)

  /** The entity's default value: the restored zone, or the blank placeholder. */
  function DefaultZone(restore: Snapshot, devicename: string): Value {
    Resolver.RestoreOrDefault(restore, devicename, Consts.Zone, VStr(Consts.BlankSensorField))
  }

  /**
   * The constructor as the source writes it: the first zone slot is assigned
   * under a misspelt name, so `from_state_zone` is never set.
   */
  function NewTrackerAsWritten(restore: Snapshot, conf: ConfDevice): Tracker {
    Tracker(conf.devicename, conf, None, DefaultZone(restore, conf.devicename), None, VStr(""))
  }

  /** The constructor as intended: no Device yet, and both zone slots empty. */
  function NewTracker(restore: Snapshot, conf: ConfDevice): Tracker {
    Tracker(conf.devicename, conf, None, DefaultZone(restore, conf.devicename), Some(VStr("")), VStr(""))
  }

  /**
   * A new entity, as the constructor is written: it keeps its devicename and
   * configuration, has no Device yet, an empty "to" zone and no "from" zone,
   * and its default value is the restored zone, or the blank placeholder.
   */
  lemma NewEntityStart(restore: Snapshot, conf: ConfDevice, h: Helpers)
    ensures var t := NewTrackerAsWritten(restore, conf);
            && t.devicename == conf.devicename && t.conf == conf
            && t.device.None?
            && t.fromStateZone.None? && t.toStateZone == VStr("")
            && t.defaultValue == Resolver.SensorValue(restore, t, h, Consts.Zone, false)
  {
    DefaultIsZoneBeforeDevice(restore, conf, h);
  }

  /**
   * A new entity's default value is what the sensor ladder gives for the zone
   * before the Device exists: the restored zone, or the blank placeholder.
   */
  lemma DefaultIsZoneBeforeDevice(restore: Snapshot, conf: ConfDevice, h: Helpers)
    ensures var t := NewTrackerAsWritten(restore, conf);
            && t.defaultValue == Resolver.SensorValue(restore, t, h, Consts.Zone, false)
            && (Resolver.InSnapshot(restore, conf.devicename, Consts.Zone) ==>
                  t.defaultValue == restore[conf.devicename]["sensors"][Consts.Zone])
            && (!Resolver.InSnapshot(restore, conf.devicename, Consts.Zone) ==>
                  t.defaultValue == VStr(Consts.BlankSensorField))
  {
  }

  /** The configured devicenames, in order. */
  function Devicenames(confDevices: seq<ConfDevice>): seq<string>
    decreases |confDevices|
  {
    if confDevices == [] then []
    else Devicenames(confDevices[..|confDevices| - 1]) + [confDevices[|confDevices| - 1].devicename]
  }

  /** Each recorded devicename is the devicename of the configuration at the same position. */
  lemma {:induction false} DevicenamesElements(confDevices: seq<ConfDevice>)
    ensures |Devicenames(confDevices)| == |confDevices|
    ensures forall i :: 0 <= i < |confDevices| ==> Devicenames(confDevices)[i] == confDevices[i].devicename
    decreases |confDevices|
  {
    if confDevices != [] {
      var init := confDevices[..|confDevices| - 1];
      DevicenamesElements(init);
      assert forall i :: 0 <= i < |init| ==> init[i] == confDevices[i];
    }
  }

  /** The configuration gives the device a tracker: it is not inactive. */
  predicate Active(c: ConfDevice) {
    c.trackingMode != Consts.InactiveDevice
  }

  /**
   * The configured devices that get a new entity, in order: an inactive
   * configuration, or one whose devicename already has an entity, is skipped.
   */
  function Admitted(known: set<string>, confDevices: seq<ConfDevice>): seq<ConfDevice>
    decreases |confDevices|
  {
    if confDevices == [] then []
    else
      var c := confDevices[0];
      if c.devicename in known || !Active(c) then Admitted(known, confDevices[1..])
      else [c] + Admitted(known + {c.devicename}, confDevices[1..])
  }

  /**
   * `r` admits only active configurations with new devicenames, no devicename
   * twice, and every active configuration's new devicename.
   */
  predicate SoundAdmission(known: set<string>, confDevices: seq<ConfDevice>, r: seq<ConfDevice>) {
    && (forall i :: 0 <= i < |r| ==> r[i] in confDevices && Active(r[i]) && r[i].devicename !in known)
    && (forall i, j :: 0 <= i < j < |r| ==> r[i].devicename != r[j].devicename)
    && (forall c :: c in confDevices && Active(c) && c.devicename !in known ==> c.devicename in NamesIn(r))
  }

  /**
   * Every admitted configuration is active and new, no devicename is admitted
   * twice, and every active configuration with a new devicename has its
   * devicename admitted.
   */
  lemma {:induction false} AdmittedSound(known: set<string>, confDevices: seq<ConfDevice>)
    ensures SoundAdmission(known, confDevices, Admitted(known, confDevices))
    decreases |confDevices|
  {
    if confDevices != [] {
      var c := confDevices[0];
      var tail := confDevices[1..];
      assert confDevices == [c] + tail;
      if c.devicename in known || !Active(c) {
        AdmittedSound(known, tail);
        SkipKeepsSound(known, c, tail, Admitted(known, tail));
      } else {
        AdmittedSound(known + {c.devicename}, tail);
        AdmitKeepsSound(known, c, tail, Admitted(known + {c.devicename}, tail));
      }
    }
  }

  /** A skipped configuration leaves the admission sound. */
  lemma SkipKeepsSound(known: set<string>, c: ConfDevice, tail: seq<ConfDevice>, rest: seq<ConfDevice>)
    requires c.devicename in known || !Active(c)
    requires SoundAdmission(known, tail, rest)
    ensures SoundAdmission(known, [c] + tail, rest)
  {
    assert forall c' :: c' in [c] + tail ==> c' == c || c' in tail;
    assert forall c' :: c' in tail ==> c' in [c] + tail;
  }

  /** An admitted configuration in front of a sound admission of the rest keeps it sound. */
  lemma AdmitKeepsSound(known: set<string>, c: ConfDevice, tail: seq<ConfDevice>, rest: seq<ConfDevice>)
    requires c.devicename !in known && Active(c)
    requires SoundAdmission(known + {c.devicename}, tail, rest)
    ensures SoundAdmission(known, [c] + tail, [c] + rest)
  {
    var confDevices := [c] + tail;
    var r := [c] + rest;
    assert forall c' :: c' in confDevices ==> c' == c || c' in tail;
    assert forall c' :: c' in tail ==> c' in confDevices;
    forall i | 0 <= i < |r|
      ensures r[i] in confDevices && Active(r[i]) && r[i].devicename !in known
    {
      if i > 0 {
        assert r[i] == rest[i - 1];
      }
    }
    forall i, j | 0 <= i < j < |r|
      ensures r[i].devicename != r[j].devicename
    {
      assert r[j] == rest[j - 1];
      if i > 0 {
        assert r[i] == rest[i - 1];
      }
    }
    forall c' | c' in confDevices && Active(c') && c'.devicename !in known
      ensures c'.devicename in NamesIn(r)
    {
      if c'.devicename == c.devicename {
        assert c in r;
      } else {
        assert c'.devicename in NamesIn(rest);
        var x :| x in rest && x.devicename == c'.devicename;
        assert x in r;
      }
    }
  }

  /** The devicenames of some configurations. */
  function NamesIn(confDevices: seq<ConfDevice>): set<string> {
    set c | c in confDevices :: c.devicename
  }

  /** The configuration at `j` is the first active one for its devicename. */
  predicate FirstActive(confDevices: seq<ConfDevice>, j: nat)
    requires j < |confDevices|
  {
    && Active(confDevices[j])
    && forall k :: 0 <= k < j && confDevices[k].devicename == confDevices[j].devicename ==> !Active(confDevices[k])
  }

  /** When a devicename repeats, the entity is built from its first active configuration. */
  lemma {:induction false} AdmittedTakesFirst(known: set<string>, confDevices: seq<ConfDevice>, j: nat)
    requires j < |confDevices| && FirstActive(confDevices, j) && confDevices[j].devicename !in known
    ensures confDevices[j] in Admitted(known, confDevices)
    decreases j
  {
    var c := confDevices[0];
    var tail := confDevices[1..];
    if j > 0 {
      assert tail[j - 1] == confDevices[j];
      assert FirstActive(tail, j - 1) by {
        forall k | 0 <= k < j - 1 && tail[k].devicename == tail[j - 1].devicename
          ensures !Active(tail[k])
        {
          assert tail[k] == confDevices[k + 1];
        }
      }
      if c.devicename in known || !Active(c) {
        AdmittedTakesFirst(known, tail, j - 1);
      } else {
        assert c.devicename != confDevices[j].devicename;
        AdmittedTakesFirst(known + {c.devicename}, tail, j - 1);
      }
    }
  }

  /** The entities built for the admitted configurations, one each, in order, by the constructor as written. */
  function Build(restore: Snapshot, confDevices: seq<ConfDevice>): (r: seq<Tracker>)
    ensures |r| == |confDevices|
    decreases |confDevices|
  {
    if confDevices == [] then [] else [NewTrackerAsWritten(restore, confDevices[0])] + Build(restore, confDevices[1..])
  }

  /** The devicenames of some entities. */
  function NamesOf(ts: seq<Tracker>): set<string> {
    set t | t in ts :: t.devicename
  }

  /** One step of the loop: a skipped configuration adds nothing, an admitted one adds its entity in front. */
  lemma BuildStep(restore: Snapshot, known: set<string>, confDevices: seq<ConfDevice>)
    requires confDevices != []
    ensures var c := confDevices[0];
            var later := confDevices[1..];
            if c.devicename in known || !Active(c)
            then Build(restore, Admitted(known, confDevices)) == Build(restore, Admitted(known, later))
            else Build(restore, Admitted(known, confDevices))
                 == [NewTrackerAsWritten(restore, c)] + Build(restore, Admitted(known + {c.devicename}, later))
  {
    var c := confDevices[0];
    if !(c.devicename in known || !Active(c)) {
      var adm := Admitted(known, confDevices);
      assert adm[1..] == Admitted(known + {c.devicename}, confDevices[1..]);
    }
  }

  /** Adding one entity adds its devicename. */
  lemma NamesOfAppend(ts: seq<Tracker>, t: Tracker)
    ensures NamesOf(ts + [t]) == NamesOf(ts) + {t.devicename}
  {
    assert forall u :: u in ts + [t] <==> u in ts || u == t;
  }

  /**
   * `trackers` holds every entity of `base` unchanged and each entity of
   * `created` under its devicename, and no other devicename.
   */
  predicate Registers(trackers: map<string, Tracker>, base: map<string, Tracker>, created: seq<Tracker>) {
    && trackers.Keys == base.Keys + NamesOf(created)
    && (forall dn :: dn in base ==> trackers[dn] == base[dn])
    && (forall t :: t in created ==> trackers[t.devicename] == t)
  }

  /** Registering one more entity under a new devicename. */
  lemma RegisterStep(trackers: map<string, Tracker>, base: map<string, Tracker>, created: seq<Tracker>, t: Tracker)
    requires Registers(trackers, base, created) && t.devicename !in trackers
    ensures Registers(trackers[t.devicename := t], base, created + [t])
  {
    NamesOfAppend(created, t);
  }

  /** Recording one more devicename extends the recorded list by it. */
  lemma RecordStep(prefix: seq<string>, confDevices: seq<ConfDevice>, i: nat)
    requires i < |confDevices|
    ensures prefix + Devicenames(confDevices[..i + 1]) == prefix + Devicenames(confDevices[..i]) + [confDevices[i].devicename]
  {
    assert confDevices[..i + 1][..i] == confDevices[..i];
  }

  /** A skipped configuration leaves the entities still to build unchanged. */
  lemma SkipStep(restore: Snapshot, known: set<string>, confDevices: seq<ConfDevice>, i: nat)
    requires i < |confDevices| && (confDevices[i].devicename in known || !Active(confDevices[i]))
    ensures Build(restore, Admitted(known, confDevices[i..])) == Build(restore, Admitted(known, confDevices[i + 1..]))
  {
    assert confDevices[i..][0] == confDevices[i] && confDevices[i..][1..] == confDevices[i + 1..];
    BuildStep(restore, known, confDevices[i..]);
  }

  /** An admitted configuration's entity is the next one still to build. */
  lemma AdmitStep(restore: Snapshot, known: set<string>, confDevices: seq<ConfDevice>, i: nat,
                  created: seq<Tracker>, goal: seq<Tracker>)
    requires i < |confDevices| && confDevices[i].devicename !in known && Active(confDevices[i])
    requires created + Build(restore, Admitted(known, confDevices[i..])) == goal
    ensures var c := confDevices[i];
            created + [NewTrackerAsWritten(restore, c)] + Build(restore, Admitted(known + {c.devicename}, confDevices[i + 1..]))
            == goal
  {
    var c := confDevices[i];
    assert confDevices[i..][0] == c && confDevices[i..][1..] == confDevices[i + 1..];
    BuildStep(restore, known, confDevices[i..]);
    var later := Build(restore, Admitted(known + {c.devicename}, confDevices[i + 1..]));
    assert created + [NewTrackerAsWritten(restore, c)] + later == created + ([NewTrackerAsWritten(restore, c)] + later);
  }

  /**
   * The loop of `async_setup_entry`: every configured devicename is recorded;
   * each admitted configuration gets a new entity, registered under its
   * devicename; existing entities are kept; the entity count is set only the
   * first time, and the created count grows by one per new entity.
   */
  method SetupTrackers(restore: Snapshot, s: SetupState, confDevices: seq<ConfDevice>)
    returns (s': SetupState, created: seq<Tracker>)
    ensures created == Build(restore, Admitted(s.trackers.Keys, confDevices))
    ensures s'.confDevicenames == s.confDevicenames + Devicenames(confDevices)
    ensures Registers(s'.trackers, s.trackers, created)
    ensures s'.trackersCnt == if s.trackersCnt == 0 then |created| else s.trackersCnt
    ensures s'.createdCnt == s.createdCnt + |created|
    ensures s'.haDeviceIds == s.haDeviceIds
  {
    var names := s.confDevicenames;
    var trackers := s.trackers;
    var createdCnt := s.createdCnt;
    created := [];
    var goal := Build(restore, Admitted(s.trackers.Keys, confDevices));
    for i := 0 to |confDevices|
      invariant names == s.confDevicenames + Devicenames(confDevices[..i])
      invariant created + Build(restore, Admitted(trackers.Keys, confDevices[i..])) == goal
      invariant Registers(trackers, s.trackers, created)
      invariant createdCnt == s.createdCnt + |created|
    {
      var c := confDevices[i];
      RecordStep(s.confDevicenames, confDevices, i);
      names := names + [c.devicename];
      if c.devicename in trackers || !Active(c) {
        SkipStep(restore, trackers.Keys, confDevices, i);
        continue;
      }
      var t := NewTrackerAsWritten(restore, c);
      AdmitStep(restore, trackers.Keys, confDevices, i, created, goal);
      RegisterStep(trackers, s.trackers, created, t);
      var known := trackers.Keys + {c.devicename};
      trackers := trackers[c.devicename := t];
      assert trackers.Keys == known;
      created := created + [t];
      createdCnt := createdCnt + 1;
    }
    assert confDevices[..|confDevices|] == confDevices;
    var trackersCnt := if s.trackersCnt == 0 then |created| else s.trackersCnt;
    s' := SetupState(names, trackers, trackersCnt, createdCnt, s.haDeviceIds);
  }

  /** A configuration whose every active devicename already has an entity creates none. */
  lemma {:induction false} NothingAdmittedWhenAllKnown(known: set<string>, confDevices: seq<ConfDevice>)
    requires forall c :: c in confDevices && Active(c) ==> c.devicename in known
    ensures Admitted(known, confDevices) == []
    decreases |confDevices|
  {
    if confDevices != [] {
      assert confDevices[0] in confDevices;
      assert forall c :: c in confDevices[1..] ==> c in confDevices;
      NothingAdmittedWhenAllKnown(known, confDevices[1..]);
    }
  }

  /** Re-admitting with the first admission's devicenames known admits nothing. */
  lemma AdmittedTwiceIsEmpty(known: set<string>, confDevices: seq<ConfDevice>)
    ensures Admitted(known + NamesIn(Admitted(known, confDevices)), confDevices) == []
  {
    AdmittedSound(known, confDevices);
    NothingAdmittedWhenAllKnown(known + NamesIn(Admitted(known, confDevices)), confDevices);
  }

  /** The entities built for some configurations carry exactly their devicenames. */
  lemma {:induction false} NamesOfBuild(restore: Snapshot, confDevices: seq<ConfDevice>)
    ensures NamesOf(Build(restore, confDevices)) == NamesIn(confDevices)
    decreases |confDevices|
  {
    if confDevices != [] {
      var c := confDevices[0];
      var tail := confDevices[1..];
      NamesOfBuild(restore, tail);
      var built := Build(restore, confDevices);
      assert built == [NewTrackerAsWritten(restore, c)] + Build(restore, tail);
      assert NamesOf(built) == {c.devicename} + NamesOf(Build(restore, tail)) by {
        assert forall u :: u in built <==> u == NewTrackerAsWritten(restore, c) || u in Build(restore, tail);
      }
      assert NamesIn(confDevices) == {c.devicename} + NamesIn(tail) by {
        assert confDevices == [c] + tail;
        assert forall x :: x in confDevices <==> x == c || x in tail;
      }
    }
  }

  /**
   * Running the setup loop a second time over the same configuration creates
   * no entity: every active devicename already has one.
   */
  method SetupTwiceCreatesNothing(restore: Snapshot, s: SetupState, confDevices: seq<ConfDevice>)
    returns (s2: SetupState, created1: seq<Tracker>, created2: seq<Tracker>)
    ensures created1 == Build(restore, Admitted(s.trackers.Keys, confDevices))
    ensures created2 == []
    ensures s2.createdCnt == s.createdCnt + |created1|
  {
    var s1;
    s1, created1 := SetupTrackers(restore, s, confDevices);
    s2, created2 := SetupTrackers(restore, s1, confDevices);
    NamesOfBuild(restore, Admitted(s.trackers.Keys, confDevices));
    AdmittedTwiceIsEmpty(s.trackers.Keys, confDevices);
    assert s1.trackers.Keys == s.trackers.Keys + NamesIn(Admitted(s.trackers.Keys, confDevices));
  }

  /** The evident intent of the test guarding `async_add_entities`: some entity was created. */
  predicate AddsEntities(created: seq<Tracker>) {
    |created| > 0
  }

  /**
   * `async_setup_entry` as the source writes it. `NewDeviceTrackers is not []`
   * compares identity with a fresh empty list, so it holds for every list: the
   * created entities, none at all included, are always handed on, and the
   * bindings are always rebuilt from the registry. `added` is the list handed on.
   */
  method SetupEntryAsWritten(restore: Snapshot, s: SetupState, confDevices: seq<ConfDevice>,
                             reg: Registry.DeviceRegistry)
    returns (s': SetupState, added: seq<Tracker>)
    ensures added == Build(restore, Admitted(s.trackers.Keys, confDevices))
    ensures s'.confDevicenames == s.confDevicenames + Devicenames(confDevices)
    ensures Registers(s'.trackers, s.trackers, added)
    ensures s'.haDeviceIds == Registry.Reconcile(s'.confDevicenames, reg)
  {
    s', added := SetupTrackers(restore, s, confDevices);
    var ids := Registry.GetHaDeviceIds(s'.confDevicenames, reg);
    s' := s'.(haDeviceIds := ids);
  }

  /**
   * `async_setup_entry` with the evidently intended test `if NewDeviceTrackers:`:
   * the loop, then, only when an entity was created, the entities are handed
   * to Home Assistant and the registry is reconciled against every configured
   * devicename. `added` is the list handed on, if any.
   */
  method SetupEntry(restore: Snapshot, s: SetupState, confDevices: seq<ConfDevice>, reg: Registry.DeviceRegistry)
    returns (s': SetupState, added: Option<seq<Tracker>>)
    ensures added.Some? <==> exists c :: c in confDevices && Active(c) && c.devicename !in s.trackers
    ensures added.Some? ==> added.value == Build(restore, Admitted(s.trackers.Keys, confDevices))
    ensures s'.confDevicenames == s.confDevicenames + Devicenames(confDevices)
    ensures added.Some? ==> s'.haDeviceIds == Registry.Reconcile(s'.confDevicenames, reg)
    ensures added.None? ==> s'.haDeviceIds == s.haDeviceIds && s'.trackers == s.trackers
  {
    var created;
    s', created := SetupTrackers(restore, s, confDevices);
    var adm := Admitted(s.trackers.Keys, confDevices);
    AdmittedSound(s.trackers.Keys, confDevices);
    if exists c :: c in confDevices && Active(c) && c.devicename !in s.trackers {
      var c :| c in confDevices && Active(c) && c.devicename !in s.trackers;
      assert c.devicename in NamesIn(adm);
    }
    if AddsEntities(created) {
      added := Some(created);
      var ids := Registry.GetHaDeviceIds(s'.confDevicenames, reg);
      s' := s'.(haDeviceIds := ids);
    } else {
      added := None;
      assert NamesOf(created) == {};
    }
  }

  /**
   * A setup in which every active devicename already has an entity. As
   * written, an empty list is handed on and the bindings are rebuilt from the
   * registry, so an empty registry drops every earlier binding; as intended,
   * nothing is handed on and the bindings stay as they were.
   */
  method EmptySetupStillReconciles(restore: Snapshot, s: SetupState, confDevices: seq<ConfDevice>,
                                   reg: Registry.DeviceRegistry)
    returns (written: SetupState, writtenAdded: seq<Tracker>, intended: SetupState, intendedAdded: Option<seq<Tracker>>)
    requires forall c :: c in confDevices && Active(c) ==> c.devicename in s.trackers
    ensures writtenAdded == [] && intendedAdded.None?
    ensures written.haDeviceIds == Registry.Reconcile(written.confDevicenames, reg)
    ensures intended.haDeviceIds == s.haDeviceIds
    ensures reg == Registry.DeviceRegistry([], []) ==> written.haDeviceIds == map[]
    ensures reg == Registry.DeviceRegistry([], []) && s.haDeviceIds != map[] ==> written.haDeviceIds != intended.haDeviceIds
  {
    written, writtenAdded := SetupEntryAsWritten(restore, s, confDevices, reg);
    intended, intendedAdded := SetupEntry(restore, s, confDevices, reg);
    NothingAdmittedWhenAllKnown(s.trackers.Keys, confDevices);
    if reg == Registry.DeviceRegistry([], []) {
      Registry.EmptyRegistryBindsNothing(written.confDevicenames);
    }
  }
}

=== FILE: wrappers.dfy ===
/** Absence and exceptions, the two ways a Python value in this model can fail to be there. */
module Wrappers {

  /** A value that may be missing: a `None` reference or a key that is not in a dict. */
  datatype Option<+T> = None | Some(value: T) {

    /** This option when it holds a value, otherwise `other`: the later binding wins. */
    function Or(other: Option<T>): Option<T> {
      if Some? then this else other
    }
  }

  /** The result of Python code that either returns a value or raises an exception. */
  datatype Attempt<+T> = Returned(value: T) | Raised {

    predicate IsFailure() {
      Raised?
    }

    function PropagateFailure<U>(): Attempt<U>
      requires Raised?
    {
      Raised
    }

    function Extract(): T
      requires Returned?
    {
      value
    }

    /** What an `except` clause that substitutes `default` leaves behind. */
    function Recover(default: T): T {
      match this
      case Returned(v) => v
      case Raised => default
    }
  }

  /** The value stored under `k`, if any. */
  function Lookup<K, V>(m: map<K, V>, k: K): Option<V> {
    if k in m then Some(m[k]) else None
  }
}

=== FILE: zone_shift.dfy ===
/**
 * `write_ha_device_tracker_state`: after Home Assistant accepts the entity's
 * state, the "to" zone moves to the "from" slot and the "to" slot is read
 * fresh from the Device.
 */
module ZoneShift {
  import opened Wrappers
  import opened Entities
  import Consts
  import Resolver
  import Setup

  /** The zone shown for the entity's state, read through the sensor ladder. */
  function StateZone(restore: Snapshot, t: Tracker, h: Helpers): Value {
    Resolver.SensorValue(restore, t, h, Consts.DeviceTrackerStateZone, false)
  }

  /**
   * `write_ha_device_tracker_state`. `writeRaised` says whether Home
   * Assistant's `async_write_ha_state` raised: the `except` then only logs,
   * and neither zone slot moves.
   */
  function WriteState(restore: Snapshot, t: Tracker, h: Helpers, writeRaised: bool): (r: Tracker)
    ensures writeRaised ==> r == t
    ensures !writeRaised ==> r.fromStateZone == Some(t.toStateZone) && r.toStateZone == StateZone(restore, t, h)
    ensures r.devicename == t.devicename && r.conf == t.conf && r.device == t.device && r.defaultValue == t.defaultValue
  {
    if writeRaised then t
    else t.(fromStateZone := Some(t.toStateZone), toStateZone := StateZone(restore, t, h))
  }

  /** One state write: the Device reference as the rest of the integration left it, and whether the write raised. */
  datatype Write = Write(device: Option<Device>, raised: bool)

  /** A run of state writes, in order, each made with the Device reference of its moment. */
  function WriteAll(restore: Snapshot, t: Tracker, h: Helpers, ws: seq<Write>): Tracker
    decreases |ws|
  {
    if ws == [] then t
    else
      var before := WriteAll(restore, t, h, ws[..|ws| - 1]);
      var w := ws[|ws| - 1];
      WriteState(restore, before.(device := w.device), h, w.raised)
  }

  /** The zones the successful writes of a run read, in order. */
  function ZonesRead(restore: Snapshot, t: Tracker, h: Helpers, ws: seq<Write>): seq<Value>
    decreases |ws|
  {
    if ws == [] then []
    else
      var earlier := ZonesRead(restore, t, h, ws[..|ws| - 1]);
      var w := ws[|ws| - 1];
      if w.raised then earlier else earlier + [StateZone(restore, t.(device := w.device), h)]
  }

  /**
   * After any run of writes the two slots hold the last two zones read: the
   * "to" slot the last one, the "from" slot the one before it (or the initial
   * "to" zone after a single successful write); a run without a successful
   * write leaves both slots as they were.
   */
  lemma {:induction false} WritesKeepLastTwoZones(restore: Snapshot, t: Tracker, h: Helpers, ws: seq<Write>)
    ensures var r := WriteAll(restore, t, h, ws);
            var zs := ZonesRead(restore, t, h, ws);
            && r.devicename == t.devicename
            && (zs == [] ==> r.fromStateZone == t.fromStateZone && r.toStateZone == t.toStateZone)
            && (|zs| >= 1 ==> r.toStateZone == zs[|zs| - 1])
            && (|zs| == 1 ==> r.fromStateZone == Some(t.toStateZone))
            && (|zs| >= 2 ==> r.fromStateZone == Some(zs[|zs| - 2]))
    decreases |ws|
  {
    if ws != [] {
      var init := ws[..|ws| - 1];
      WritesKeepLastTwoZones(restore, t, h, init);
      var before := WriteAll(restore, t, h, init);
      var w := ws[|ws| - 1];
      assert StateZone(restore, before.(device := w.device), h) == StateZone(restore, t.(device := w.device), h);
    }
  }

  /**
   * As the constructor is written, `from_state_zone` does not exist until the
   * first successful write: reading it before then raises AttributeError.
   */
  lemma {:induction false} FromZoneUnsetUntilFirstWrite(restore: Snapshot, conf: ConfDevice, h: Helpers, ws: seq<Write>)
    ensures var t := Setup.NewTrackerAsWritten(restore, conf);
            WriteAll(restore, t, h, ws).fromStateZone.None? <==> ZonesRead(restore, t, h, ws) == []
  {
    WritesKeepLastTwoZones(restore, Setup.NewTrackerAsWritten(restore, conf), h, ws);
  }

  /** With the corrected constructor the "from" slot always holds a zone, the empty one before the first write. */
  lemma {:induction false} FromZoneAlwaysSet(restore: Snapshot, conf: ConfDevice, h: Helpers, ws: seq<Write>)
    ensures var t := Setup.NewTracker(restore, conf);
            && WriteAll(restore, t, h, ws).fromStateZone.Some?
            && (ZonesRead(restore, t, h, ws) == [] ==> WriteAll(restore, t, h, ws).fromStateZone == Some(VStr("")))
  {
    WritesKeepLastTwoZones(restore, Setup.NewTracker(restore, conf), h, ws);
  }
}
